=== FILE: README.md ===
# Sidebar widget: the logic behind the presentation

The repository is a React sidebar navigation widget. It has a collapsible
panel, sections, clickable items and a list row you can rename in place, and a
small demo application hosts it. Almost all of it is markup and styling. This
project models the few parts that are sequential logic, as pure functions and
small state machines:

- **Display name** (`ShellName`, on top of `JsString`). The footer's
  `displayName` is the first two words of `String(nombre || "").trim()`, split
  on `" "`, with empty pieces dropped. `JsString` gives the ECMAScript
  semantics of `trim`, `split(" ")` and `filter(Boolean)`. `trim` strips the
  WhiteSpace and LineTerminator code points at both ends, but `split` breaks only on the
  space character.
- **Rename row** (`FormatoRow`). `SidebarFormatoItem` keeps the state
  `{isEditing, buffer}` and reads the props `text`, `formatoID` and
  `editable`. Its transitions are: the rename button, typing, commit by Enter
  or blur (`finalizarEdicion`), and a new `text` prop. It can emit one
  `(formatoID, newName)` rename event per commit.
- **Expansion flag** (`Expansion`). The expanded/collapsed flag changes on
  these events: Escape, an overlay click, the floating open button, the header
  toggle, a viewport change and item navigation. `isMobile` is an input.
- **Host application** (`HostApp`, `SidebarApp`). `HostApp` holds
  `handleRenombrar` on the `{id, nombre}` list and the single-`activeId`
  highlight rule. `SidebarApp` wires them to one row per entry, so the whole
  rename round trip can be stated.

Each handler is an atomic transition. React's scheduling of state updates and
effects is reduced to "the handler runs, then the effects whose dependencies
changed run".

Behaviour of the code that a reader might not expect, which the model
reproduces as written:

- An absent `nombre` (`undefined`) takes the parameter default `"Usuario"`
  (`ShellName.DisplayNameDefault`). Only `null` and blank strings give `""`.
- Names split on the space character only, not on all whitespace. A tab stays
  inside a word, so a display name can end in a tab and is then not a fixed
  point of the derivation (`ShellName.DisplayNameKeepsInnerWhitespace`).
- A commit that emits nothing leaves edit mode but does not restore the label.
  This happens when the trimmed buffer is empty or equals `text`. The row keeps
  showing exactly what was typed: blanks, or the label with padding
  (`FormatoRow.BlankCommitShowsTypedText`,
  `FormatoRow.PaddedCommitShowsTypedText`, `SidebarApp.BlankRenameExample`).
  The host's entry is unchanged.
- `SidebarItem` forwards a prop named `editar`, but the row reads `editable`.
  A row rendered through `SidebarItem` therefore always has `editable = true`
  (`FormatoRow.WrappedRowProps`, `FormatoRow.WrappedRowIgnoresEditar`).
- A row rendered directly, as the demo application renders its entries, returns
  `null` when the sidebar collapses but stays mounted. An edit in progress
  survives and reappears when the sidebar is expanded again
  (`SidebarApp.CollapseMidEditKeepsEdit`). A row rendered through `SidebarItem`
  behaves differently: see "Left out".
- The Escape handler is commented "in mobile" but collapses on every viewport;
  here the code and its own comment disagree, and the model follows the code.
- The collapse effect depends on `isMobile` and on the host's `setExpanded`.
  With a setter that keeps its identity across renders, as the demo
  application's `useState` setter does, it runs only when the media query
  result actually changes, so a repeated "narrow" report does nothing (see
  "Left out" for other setters).

## Model

| member | source | states |
|---|---|---|
| JsString.Trim | sidebar/src/components/Sidebar.jsx:114 | `trim` yields a string with no whitespace at either end, empty exactly when the input is all whitespace |
| JsString.TrimPadded | sidebar/src/components/Sidebar.jsx:114 | `trim` removes exactly the whitespace padding around an already trimmed string (the reference characterisation of `trim`) |
| JsString.TrimDecompose | sidebar/src/components/Sidebar.jsx:114 | every string is its trimmed form with whitespace on both sides |
| JsString.TrimIdempotent | sidebar/src/components/Sidebar.jsx:352 | trimming the committed name again changes nothing |
| JsString.Split | sidebar/src/components/Sidebar.jsx:114 | `split(" ")` gives at least one piece, no piece contains a space, and joining the pieces with single spaces gives the input back |
| JsString.SplitJoinSpace | sidebar/src/components/Sidebar.jsx:114 | conversely, splitting a single-space join of space-free pieces gives the pieces back |
| JsString.KeepNonEmpty | sidebar/src/components/Sidebar.jsx:114 | `filter(Boolean)` returns no more pieces than it was given, none of them empty, and a string is among them exactly when it is a non-empty input piece |
| JsString.KeepNonEmptyCounts | sidebar/src/components/Sidebar.jsx:114 | every non-empty piece is kept exactly as often as it occurs, and every empty piece is dropped |
| JsString.KeepNonEmptyAppend | sidebar/src/components/Sidebar.jsx:114 | filtering a concatenation is concatenating the filtered halves, so the kept pieces stay in their original order |
| JsString.KeepNonEmptyOfNonEmpty | sidebar/src/components/Sidebar.jsx:114 | a list with no empty piece passes through unchanged |
| JsString.Words | sidebar/src/components/Sidebar.jsx:114 | every part of the name is non-empty and free of spaces |
| JsString.WordsEmptyIff | sidebar/src/components/Sidebar.jsx:114 | a string has no parts if and only if it consists of spaces only |
| JsString.WordsOfJoin | sidebar/src/components/Sidebar.jsx:114 | non-empty space-free words joined by single spaces split back into exactly those words, in order |
| JsString.WordsOfPair | sidebar/src/components/Sidebar.jsx:114 | two space-free words joined by one space split back into exactly those words |
| JsString.WordsOfTriple | sidebar/src/components/Sidebar.jsx:114 | three space-free words joined by single spaces split back into exactly those words |
| JsString.WordsOfSpaceFree | sidebar/src/components/Sidebar.jsx:114 | a space-free string is its own only part, or has none when empty |
| ShellName.Coerce | sidebar/src/components/Sidebar.jsx:114 | the coerced name is `""` exactly for `null` and the empty string; an absent name becomes the parameter default `"Usuario"` (line 90), and any other string stays as given |
| ShellName.Parts | sidebar/src/components/Sidebar.jsx:114 | every part is non-empty and space-free, and there are no parts if and only if the coerced name is blank |
| ShellName.PartsStartAtName | sidebar/src/components/Sidebar.jsx:114 | the first part starts with the first non-whitespace character of the name |
| ShellName.DisplayName | sidebar/src/components/Sidebar.jsx:115 | the display name is `""` if and only if the coerced name is empty or whitespace only |
| ShellName.DisplayNameBlank | sidebar/src/components/Sidebar.jsx:114-115 | a `null`, empty or whitespace-only name shows as `""` |
| ShellName.DisplayNameDefault | sidebar/src/components/Sidebar.jsx:90 | an absent name shows as the default `"Usuario"` |
| ShellName.DisplayNameFirstTwoWords | sidebar/src/components/Sidebar.jsx:114-115 | splitting the display name again gives the first two parts of the name (all of them when fewer), so it has at most two words |
| ShellName.DisplayNameShape | sidebar/src/components/Sidebar.jsx:114-115 | the display name has no leading whitespace and no trailing space, and contains at most one space (right after the first word), so never a double space |
| ShellName.DisplayNameSoleToken | sidebar/src/components/Sidebar.jsx:114-115 | when the trimmed name contains no space, the display name is the whole trimmed name |
| ShellName.DisplayNameOfJoin | sidebar/src/components/Sidebar.jsx:114-115 | when the trimmed name is words joined by single spaces, the display name is the first two of those words (or the only one) |
| ShellName.DisplayNameOfThreeWords | sidebar/src/components/Sidebar.jsx:115 | a three-word name shows its first two words |
| ShellName.DisplayNameOfTwoWords | sidebar/src/components/Sidebar.jsx:114-115 | a two-word name with trailing whitespace shows both words without the padding |
| ShellName.DisplayNameKeepsInnerWhitespace | sidebar/src/components/Sidebar.jsx:114-115 | a tab before a space stays in the second word; the display name then ends in whitespace and is not a fixed point |
| FormatoRow.Mount | sidebar/src/components/Sidebar.jsx:333-334 | a freshly mounted row keeps its props and shows its `text` as the label |
| FormatoRow.StartEdit | sidebar/src/components/Sidebar.jsx:390-394 | the rename button enters edit mode if and only if the row is editable (or already editing); a locked row's state is unchanged; the buffer is never touched |
| FormatoRow.Commit | sidebar/src/components/Sidebar.jsx:349-357 | outside edit mode nothing changes and nothing is emitted; otherwise edit mode ends, and an event `(formatoID, trim(buffer))` is emitted exactly when the buffer is not blank and its trim differs from `text`; then the buffer becomes the trimmed name, otherwise it keeps what was typed |
| FormatoRow.ReceiveText | sidebar/src/components/Sidebar.jsx:338 | a changed `text` prop overwrites the buffer, even mid-edit; an unchanged one leaves the state alone |
| FormatoRow.Render | sidebar/src/components/Sidebar.jsx:359-385 | a collapsed sidebar renders no row; otherwise the row shows its buffer as the input value while editing and as the label otherwise |
| FormatoRow.Step | sidebar/src/components/Sidebar.jsx:372-394 | typing replaces the buffer while editing and is ignored otherwise; Enter and blur yield exactly `Commit`'s state and event; the rename button runs `StartEdit`; other keys change nothing; a new `text` runs the resync; only Enter or blur emit, only from edit mode and leaving it; only the rename button enters edit mode; the row's identifier and editability never change |
| FormatoRow.Run | sidebar/src/components/Sidebar.jsx:349-357 | over any sequence of interactions, every emitted event names this row's `formatoID` and carries a non-empty trimmed name |
| FormatoRow.CommitTwiceIsCommitOnce | sidebar/src/components/Sidebar.jsx:349-351 | a commit run on the state a commit left behind does nothing and emits nothing |
| FormatoRow.CommitEmitsTrimmedName | sidebar/src/components/Sidebar.jsx:352-355 | an emitted name is non-empty, its own trim, and differs from the current label |
| FormatoRow.TypeThenEnterRenames | sidebar/src/components/Sidebar.jsx:376-377 | typing a value that trims to a new non-blank label and pressing Enter emits it trimmed and shows it |
| FormatoRow.BlankCommitShowsTypedText | sidebar/src/components/Sidebar.jsx:352-356 | committing a blank value emits nothing, but the row shows the blanks instead of its label |
| FormatoRow.PaddedCommitShowsTypedText | sidebar/src/components/Sidebar.jsx:353 | committing the label with whitespace padding emits nothing and the padded text stays on screen |
| FormatoRow.LockedRowNeverRenames | sidebar/src/components/Sidebar.jsx:392 | a non-editable row never enters edit mode and never emits, whatever happens |
| FormatoRow.AtMostOneRenamePerEdit | sidebar/src/components/Sidebar.jsx:349-357 | a run emits at most one event per press of the rename button, plus one if it starts mid-edit |
| FormatoRow.WrappedRowProps | sidebar/src/components/Sidebar.jsx:223-233 | a row rendered through `SidebarItem` gets the given text and identifier and is always editable, whatever `editar` is |
| FormatoRow.WrappedRowIgnoresEditar | sidebar/src/components/Sidebar.jsx:223-233 | a row rendered through `SidebarItem` with `editar = false` still enters edit mode |
| Expansion.Step | sidebar/src/components/Sidebar.jsx:101-160 | Escape and the overlay collapse; the open button expands; the header toggle collapses on mobile and negates on desktop; becoming mobile collapses; navigation collapses on mobile only; only viewport changes move `isMobile` |
| Expansion.Mount | sidebar/src/components/Sidebar.jsx:33-43 | a sidebar mounted on a narrow viewport starts collapsed; on a wide one it keeps the host's flag |
| Expansion.OpenButtonShown | sidebar/src/components/Sidebar.jsx:120-129 | the open button is never offered with the overlay, is absent when `showMobileToggle` is off, and its click opens the panel with the overlay behind it |
| Expansion.OverlayShown | sidebar/src/components/Sidebar.jsx:132-135 | the overlay takes clicks only while the panel is open, and its click collapses the panel on the mobile viewport |
| Expansion.CollapseIsIdempotent | sidebar/src/components/Sidebar.jsx:107-108 | Escape and the overlay click each collapse, and repeating them changes nothing |
| Expansion.BecomingMobileCollapses | sidebar/src/components/Sidebar.jsx:101-103 | entering the mobile range collapses whatever the flag was, and a repeated report changes nothing |
| Expansion.DesktopToggleTwice | sidebar/src/components/Sidebar.jsx:157-160 | on desktop the header toggle flips the flag, and two toggles restore it |
| Expansion.MobileToggleCloses | sidebar/src/components/Sidebar.jsx:158 | on mobile the header toggle only collapses |
| Expansion.NavigateOnMobileCollapses | sidebar/src/components/Sidebar.jsx:217-221 | navigation ends collapsed on mobile and changes nothing on desktop |
| Expansion.OpenButtonAndOverlayAlternate | sidebar/src/components/Sidebar.jsx:120-135 | the open button and the overlay are never offered together; each one's handler leads to the other |
| Expansion.MobileStaysCollapsed | sidebar/src/components/Sidebar.jsx:101-160 | on mobile, a collapsed sidebar stays collapsed through any events other than the open button or leaving the mobile range |
| Expansion.EndsCollapsed | sidebar/src/components/Sidebar.jsx:106-112 | any run that ends with Escape or an overlay click ends collapsed |
| HostApp.Rename | sidebar/src/App.jsx:15-17 | renaming keeps the length, order and every `id`; entries with another `id` are unchanged; every entry with the target `id` gets the new name |
| HostApp.RenameEntry | sidebar/src/App.jsx:16 | the `map` callback keeps the entry's `id`, gives the matching entry the new name and returns any other entry unchanged |
| HostApp.RenameAbsentIsIdentity | sidebar/src/App.jsx:16 | renaming an `id` no entry has leaves the list unchanged |
| HostApp.RenameIdempotent | sidebar/src/App.jsx:16 | applying the same rename twice equals applying it once |
| HostApp.RenameLastWins | sidebar/src/App.jsx:16 | of two renames of one `id`, only the later is visible |
| HostApp.RenameCommutes | sidebar/src/App.jsx:16 | renames of different `id`s commute |
| HostApp.ClickGeneral | sidebar/src/App.jsx:31-47 | clicking a keyed General item makes it highlighted; the unkeyed item leaves `activeId` alone |
| HostApp.IsHighlighted | sidebar/src/App.jsx:34-46 | an item is highlighted only when its own key equals `activeId`; the item without a key never is |
| HostApp.AtMostOneHighlighted | sidebar/src/App.jsx:33-41 | with distinct keys, at most one General item is highlighted, since each compares to the single `activeId` |
| HostApp.ClickHighlightsOnlyTarget | sidebar/src/App.jsx:31-47 | after clicking a keyed General item, exactly that item is highlighted |
| SidebarApp.PropsFor | sidebar/src/App.jsx:54-61 | a row rendered for an entry shows the entry's name, can be renamed, and reports the entry's `id` |
| SidebarApp.Init | sidebar/src/App.jsx:6-12 | the application starts with the three initial entries and `activeId` `"docs"`, open exactly when the viewport is wide, with one row per entry rendered with that entry's props, none editing and each showing its entry's name |
| SidebarApp.Resync | sidebar/src/components/Sidebar.jsx:338 | re-rendering the rows leaves rows with an unchanged label alone, and resets the buffer of each row whose label changed |
| SidebarApp.RowInteraction | sidebar/src/App.jsx:53-63 | the entries become `handleRenombrar` of the emitted `(id, name)` when the row emits and stay exactly as they were when it does not; one row per entry, every `id`, the flag and the active `id` are kept |
| SidebarApp.Step | sidebar/src/App.jsx:20-65 | every application event keeps one row per entry and every `id`; the entry list changes only through a rename emitted by a visible row; only General-item and row clicks change `activeId`, and only to the clicked item's key or entry's `id` |
| SidebarApp.Run | sidebar/src/App.jsx:20-65 | every run keeps one row per entry, each rendered with that entry's props |
| SidebarApp.RunKeepsIds | sidebar/src/App.jsx:15-17 | no run of events adds, removes, reorders or re-identifies an entry |
| SidebarApp.RenameRoundTrip | sidebar/src/App.jsx:53-63 | when a row emits `(id, name)`: the id is its entry's, the entry stores `name`, the row leaves edit mode showing `name`, and entries with other ids and their rows are untouched |
| SidebarApp.RenameByTyping | sidebar/src/components/Sidebar.jsx:349-394 | in the running application, rename button, typing a value that trims to a new non-blank name and Enter store the trimmed value in that entry through `handleRenombrar` and leave the row showing it, with the flag and `activeId` unchanged |
| SidebarApp.CollapseMidEditKeepsEdit | sidebar/src/components/Sidebar.jsx:359 | collapsing mid-edit emits nothing and changes no entry; the row is hidden but still editing, and reopening shows the editor with the typed text |
| SidebarApp.FormatoClickClearsGeneralHighlight | sidebar/src/App.jsx:53-59 | clicking a row selects its entry's `id`, so no General item is highlighted |
| SidebarApp.RenameFirstEntryExample | sidebar/src/App.jsx:8-17 | on a wide viewport, renaming `f1` to "Informe anual" with Enter stores it in `f1` only and leaves edit mode |
| SidebarApp.BlankRenameExample | sidebar/src/components/Sidebar.jsx:352-356 | typing only spaces and pressing Enter keeps the entries unchanged, while the row shows the spaces |

## Left out

- Markup, Tailwind classes, lucide icons and `createPortal`. This is pure
  presentation. So is the `active` highlight of rename rows, which the demo
  fixes to `false`.
- The collapsed-item tooltip (`showTooltip`, `hideTooltip`, its
  scroll/resize/Escape listeners, `GAP`). It is DOM pixel geometry.
- `useIsMobile`'s `matchMedia` subscription and the document keydown listener.
  They are environment I/O. `isMobile` is an input, and each media-query change
  is a `ViewportChange` event. `handleNavigate` queries `matchMedia` itself. The
  model uses `isMobile` there, which assumes the subscription is up to date.
- Focusing and selecting the input in `requestAnimationFrame` (effect at lines
  341-347). This is browser focus handling.
- Whether removing a focused input fires `onBlur` depends on the browser, so it
  is not modelled, neither on collapse (the model keeps the edit) nor after
  Enter. After Enter the row re-renders without the input; if the browser
  fires blur then, the handler is the previous render's `finalizarEdicion`,
  whose captured `isEditing` is still true, so `onRenombrar` is called a second
  time with the same arguments. The event counts in
  `FormatoRow.CommitTwiceIsCommitOnce` and `FormatoRow.AtMostOneRenamePerEdit`
  assume no such blur. A duplicate call leaves the host's entries as one call
  does (`HostApp.RenameIdempotent`).
- The host's `setExpanded` is assumed to keep its identity across renders, as
  the demo application's `useState` setter does. The collapse effect also
  depends on the setter (Sidebar.jsx line 103), so a host passing a new setter
  on every render (an inline arrow, say) re-runs it on every render; on mobile
  the open button's expansion is then collapsed again at once, which
  `Expansion.Step` and the lemmas built on it do not show.
- Rows rendered through `SidebarItem` are only modelled for their props
  (`FormatoRow.WrappedRowProps`). `SidebarItem` renders the row only while the
  sidebar is expanded (Sidebar.jsx line 223) and something else otherwise, so
  on collapse that row unmounts and its edit is lost; on re-expansion it mounts
  fresh (`FormatoRow.Mount`: not editing, buffer reset to `text`). The
  application model renders rows directly and does not cover this path.
- The avatar URL and `encodeURIComponent`. These are an external endpoint and a
  library call.
- The `alert` and logout callbacks, and the optional chaining on `onRenombrar`
  and `onClick`. The model reports the rename event. Whether a callback receives
  it is up to the caller.
- Non-string values of `nombre` (numbers, objects) go through `String(...)` in
  the source. They are not modelled.
- JavaScript strings are UTF-16. The model's characters are Unicode scalar
  values, so lone surrogates cannot be represented. No whitespace character is
  affected.
- React batching and effect ordering. Each handler runs to completion, and
  then the `text` effect runs if its dependency changed.

=== FILE: expansion.dfy ===
/**
 The sidebar's expanded/collapsed flag and the handlers that set it. The flag
 belongs to the hosting application; the shell and its items only call its
 setter. `isMobile` is the result of the `(max-width: 767px)` media query.
 */
module Expansion {

  /** The flag together with the viewport class it is interpreted against. */
  datatype Shell = Shell(expanded: bool, isMobile: bool)

  /** Everything that calls the flag's setter. */
  datatype ShellEvent =
    | Escape                        // keydown "Escape" anywhere in the document
    | OverlayClick                  // the dimmed overlay behind the open panel
    | OpenButton                    // the floating open button
    | HeaderToggle                  // the collapse/expand button in the header
    | ViewportChange(matches: bool) // the media query's current result
    | Navigate                      // a click on an item, after the item's own handler

  /** One handler run. Escape and the overlay collapse on every viewport (the
      Escape handler is not limited to mobile); the header button collapses on
      mobile and flips the flag on desktop; entering the mobile range collapses;
      navigating collapses on mobile only. Only a viewport change moves
      `isMobile`, and the collapse effect runs only when `isMobile` actually
      changes (the host's setter is taken to keep its identity across renders). */
  function Step(s: Shell, e: ShellEvent): (r: Shell)
    ensures e.ViewportChange? ==> r.isMobile == e.matches
    ensures !e.ViewportChange? ==> r.isMobile == s.isMobile
    ensures (e.Escape? || e.OverlayClick?) ==> !r.expanded
    ensures e.OpenButton? ==> r.expanded
    ensures e.HeaderToggle? ==> (r.expanded <==> !s.isMobile && !s.expanded)
    ensures e.ViewportChange? ==> (r.expanded <==> s.expanded && !(e.matches && !s.isMobile))
    ensures e.Navigate? ==> (r.expanded <==> !s.isMobile && s.expanded)
  {
    match e
    case Escape => s.(expanded := false)
    case OverlayClick => s.(expanded := false)
    case OpenButton => s.(expanded := true)
    case HeaderToggle => if s.isMobile then s.(expanded := false) else s.(expanded := !s.expanded)
    case ViewportChange(m) =>
      if m == s.isMobile then s
      else if m then Shell(false, true)
      else s.(isMobile := false)
    case Navigate => if s.isMobile then s.(expanded := false) else s
  }

  /** Mounting: `isMobile` starts out false and the media query is then read once,
      which collapses a sidebar mounted on a narrow viewport. */
  function Mount(expanded: bool, matches: bool): (r: Shell)
    ensures r.isMobile == matches
    ensures r.expanded <==> expanded && !matches
  {
    Step(Shell(expanded, false), ViewportChange(matches))
  }

  /** The floating open button is rendered when the panel is collapsed; CSS shows it
      on mobile only. It is never offered together with the overlay, and its
      handler opens the panel with the overlay behind it. */
  predicate OpenButtonShown(s: Shell, showMobileToggle: bool): (r: bool)
    ensures r ==> !OverlayShown(s)
    ensures r ==> OverlayShown(Step(s, OpenButton))
    ensures !showMobileToggle ==> !r
  {
    showMobileToggle && !s.expanded && s.isMobile
  }

  /** The overlay takes clicks only when the panel is open, and is visible on mobile
      only. Its handler closes the panel and stays on the same viewport. */
  predicate OverlayShown(s: Shell): (r: bool)
    ensures r ==> Step(s, OverlayClick) == Shell(false, true)
    ensures !s.expanded ==> !r
  {
    s.expanded && s.isMobile
  }

  function Run(s: Shell, es: seq<ShellEvent>): Shell
    decreases |es|
  {
    if es == [] then s else Run(Step(s, es[0]), es[1..])
  }

  // ---------------------------------------------------------------------------
  // Lemmas
  // ---------------------------------------------------------------------------

  /** Escape and an overlay click each collapse, and doing it again changes
      nothing. */
  lemma CollapseIsIdempotent(s: Shell, e: ShellEvent)
    requires e.Escape? || e.OverlayClick?
    ensures !Step(s, e).expanded
    ensures Step(Step(s, e), e) == Step(s, e)
  {
  }

  /** Entering the mobile range collapses whatever the flag was, and a repeated
      report of the same viewport changes nothing. */
  lemma BecomingMobileCollapses(s: Shell)
    requires !s.isMobile
    ensures Step(s, ViewportChange(true)) == Shell(false, true)
    ensures Step(Step(s, ViewportChange(true)), ViewportChange(true)) == Shell(false, true)
  {
  }

  /** On desktop the header button is an involution: pressing it twice restores
      the flag. */
  lemma DesktopToggleTwice(s: Shell)
    requires !s.isMobile
    ensures Step(Step(s, HeaderToggle), HeaderToggle) == s
    ensures Step(s, HeaderToggle).expanded != s.expanded
  {
  }

  /** On mobile the header button only closes. */
  lemma MobileToggleCloses(s: Shell)
    requires s.isMobile
    ensures Step(s, HeaderToggle) == s.(expanded := false)
  {
  }

  /** Navigating on mobile ends collapsed; on desktop it leaves the flag alone. */
  lemma NavigateOnMobileCollapses(s: Shell)
    ensures s.isMobile ==> !Step(s, Navigate).expanded
    ensures !s.isMobile ==> Step(s, Navigate) == s
  {
  }

  /** The open button and the overlay are never both offered, and each one's
      handler leads to a state that offers the other. */
  lemma OpenButtonAndOverlayAlternate(s: Shell)
    ensures !(OpenButtonShown(s, true) && OverlayShown(s))
    ensures OpenButtonShown(s, true) ==> OverlayShown(Step(s, OpenButton))
    ensures OverlayShown(s) ==> OpenButtonShown(Step(s, OverlayClick), true)
  {
  }

  /** A collapsed sidebar on a narrow viewport stays collapsed through any run of
      events that neither presses the open button nor leaves the mobile range. */
  lemma {:induction false} MobileStaysCollapsed(s: Shell, es: seq<ShellEvent>)
    requires s.isMobile && !s.expanded
    requires forall k :: 0 <= k < |es| ==> es[k] != OpenButton && es[k] != ViewportChange(false)
    ensures Run(s, es) == s
    decreases |es|
  {
    if es != [] {
      assert es[0] != OpenButton && es[0] != ViewportChange(false);
      MobileStaysCollapsed(Step(s, es[0]), es[1..]);
    }
  }

  /** Whatever happened before, a run that ends with Escape or an overlay click
      ends collapsed. */
  lemma {:induction false} EndsCollapsed(s: Shell, es: seq<ShellEvent>, last: ShellEvent)
    requires last == Escape || last == OverlayClick
    ensures !Run(s, es + [last]).expanded
    decreases |es|
  {
    if es == [] {
      assert es + [last] == [last];
    } else {
      assert (es + [last])[1..] == es[1..] + [last];
      EndsCollapsed(Step(s, es[0]), es[1..], last);
    }
  }
}

=== FILE: formatorow.dfy ===
/**
 The rename-capable list row (`SidebarFormatoItem`): a label that the row's
 secondary button turns into a text input, and that Enter or blur commits back
 to the caller as a `(formatoID, newName)` rename event.
 */
module FormatoRow {
  import opened Wrappers
  import opened JsString

  /** The props the row reads. */
  datatype RowProps = RowProps(text: string, formatoId: string, editable: bool)

  /** The row's local state: the `isEditing` flag and the edit buffer
      (`nombreEditado`). */
  datatype RowState = RowState(isEditing: bool, buffer: string)

  /** A mounted row: the props it was last rendered with and its local state. */
  datatype Row = Row(props: RowProps, state: RowState)

  /** The arguments of one `onRenombrar(formatoID, nuevo)` call. */
  datatype RenameEvent = RenameEvent(id: string, newName: string)

  /** The row's state after a commit, and the rename event it emitted, if any. */
  datatype Committed = Committed(state: RowState, fired: Option<RenameEvent>)

  /** What the row renders: nothing while the sidebar is collapsed, otherwise the
      buffer as a label or as the value of the edit input. */
  datatype View = Hidden | Label(shown: string) | Editor(value: string)

  /** The user interactions the row reacts to, plus a new `text` prop. */
  datatype RowEvent =
    | PressRename            // the secondary action button
    | Input(value: string)   // the input's change event
    | PressEnter
    | PressOtherKey
    | Blur
    | TextProp(text: string) // the caller re-renders the row with a new label

  datatype Stepped = Stepped(row: Row, fired: Option<RenameEvent>)

  datatype Trace = Trace(row: Row, fired: seq<RenameEvent>)

  /** A freshly mounted row: not editing, buffer initialised from `text`, so it
      shows its label. */
  function Mount(p: RowProps): (r: Row)
    ensures r.props == p
    ensures Render(true, r.state) == Label(p.text)
  {
    Row(p, RowState(false, p.text))
  }

  /** The secondary button's click handler: enters edit mode only when the row is
      editable; the buffer is untouched. */
  function StartEdit(p: RowProps, s: RowState): (r: RowState)
    ensures r.buffer == s.buffer
    ensures r.isEditing <==> s.isEditing || p.editable
    ensures !p.editable ==> r == s
  {
    if !p.editable then s else s.(isEditing := true)
  }

  /** `finalizarEdicion`, run by Enter and by blur. Outside edit mode it does
      nothing. Otherwise it leaves edit mode and, when the trimmed buffer is
      non-empty and differs from `text`, stores the trimmed value in the buffer and
      emits one rename event carrying it; in every other case the buffer keeps
      exactly what was typed. */
  function Commit(p: RowProps, s: RowState): (c: Committed)
    ensures !s.isEditing ==> c == Committed(s, None)
    ensures s.isEditing ==> !c.state.isEditing
    ensures c.fired.Some? <==> s.isEditing && !AllWs(s.buffer) && Trim(s.buffer) != p.text
    ensures c.fired.Some? ==>
      && c.fired.value == RenameEvent(p.formatoId, Trim(s.buffer))
      && c.state.buffer == c.fired.value.newName
    ensures c.fired.None? ==> c.state.buffer == s.buffer
  {
    if !s.isEditing then Committed(s, None)
    else
      var nuevo := Trim(s.buffer);
      if nuevo != "" && nuevo != p.text then
        Committed(RowState(false, nuevo), Some(RenameEvent(p.formatoId, nuevo)))
      else
        Committed(s.(isEditing := false), None)
  }

  /** The effect on `text`: React runs it only when the prop actually changes, and
      it then overwrites the buffer, even in the middle of an edit. */
  function ReceiveText(row: Row, t: string): (r: Row)
    ensures r.props == row.props.(text := t)
    ensures r.state.isEditing == row.state.isEditing
    ensures t != row.props.text ==> r.state.buffer == t
    ensures t == row.props.text ==> r.state == row.state
  {
    if t == row.props.text then row.(props := row.props.(text := t))
    else Row(row.props.(text := t), row.state.(buffer := t))
  }

  /** What the row shows: nothing while the sidebar is collapsed (the row stays
      mounted, so its state survives), otherwise the buffer. */
  function Render(expanded: bool, s: RowState): (v: View)
    ensures v.Hidden? <==> !expanded
    ensures v.Label? ==> v.shown == s.buffer && !s.isEditing
    ensures v.Editor? ==> v.value == s.buffer && s.isEditing
  {
    if !expanded then Hidden
    else if s.isEditing then Editor(s.buffer)
    else Label(s.buffer)
  }

  /** One interaction. Typing and key presses reach the row only through the input,
      which exists only in edit mode. */
  function Step(row: Row, e: RowEvent): (st: Stepped)
    ensures st.row.props.formatoId == row.props.formatoId
    ensures st.row.props.editable == row.props.editable
    ensures !e.TextProp? ==> st.row.props == row.props
    ensures st.fired.Some? ==> e.PressEnter? || e.Blur?
    ensures st.fired.Some? ==> row.state.isEditing && !st.row.state.isEditing
    ensures st.row.state.isEditing && !row.state.isEditing ==> e.PressRename?
    ensures e.PressRename? ==> st == Stepped(row.(state := StartEdit(row.props, row.state)), None)
    ensures e.Input? ==> st.fired.None? && st.row.props == row.props
    ensures e.Input? && row.state.isEditing ==> st.row.state == RowState(true, e.value)
    ensures e.Input? && !row.state.isEditing ==> st.row == row
    ensures e.PressOtherKey? ==> st == Stepped(row, None)
    ensures (e.PressEnter? || e.Blur?) ==>
      var c := Commit(row.props, row.state);
      st.row.state == c.state && st.fired == c.fired
    ensures e.TextProp? ==> st == Stepped(ReceiveText(row, e.text), None)
  {
    match e
    case PressRename => Stepped(row.(state := StartEdit(row.props, row.state)), None)
    case Input(v) =>
      if row.state.isEditing then Stepped(row.(state := row.state.(buffer := v)), None)
      else Stepped(row, None)
    case PressOtherKey => Stepped(row, None)
    case PressEnter =>
      var c := Commit(row.props, row.state);
      Stepped(row.(state := c.state), c.fired)
    case Blur =>
      var c := Commit(row.props, row.state);
      Stepped(row.(state := c.state), c.fired)
    case TextProp(t) => Stepped(ReceiveText(row, t), None)
  }

  function FiredList(f: Option<RenameEvent>): seq<RenameEvent> {
    if f.Some? then [f.value] else []
  }

  /** A sequence of interactions, collecting the rename events in order. Every
      event names this row's `formatoID` and carries a non-empty trimmed name, and
      the row's identity and editability never change. */
  function Run(row: Row, es: seq<RowEvent>): (t: Trace)
    ensures t.row.props.formatoId == row.props.formatoId
    ensures t.row.props.editable == row.props.editable
    ensures forall k :: 0 <= k < |t.fired| ==>
      t.fired[k].id == row.props.formatoId && t.fired[k].newName != "" && Trimmed(t.fired[k].newName)
    decreases |es|
  {
    if es == [] then Trace(row, [])
    else
      var st := Step(row, es[0]);
      var rest := Run(st.row, es[1..]);
      Trace(rest.row, FiredList(st.fired) + rest.fired)
  }

  function CountPresses(es: seq<RowEvent>): nat {
    if es == [] then 0
    else (if es[0].PressRename? then 1 else 0) + CountPresses(es[1..])
  }

  // ---------------------------------------------------------------------------
  // Lemmas
  // ---------------------------------------------------------------------------

  /** A commit run on the state a first commit left behind does nothing: with
      each handler seeing the current state, a commit emits its event once. */
  lemma CommitTwiceIsCommitOnce(p: RowProps, s: RowState)
    ensures Commit(p, Commit(p, s).state) == Committed(Commit(p, s).state, None)
  {
  }

  /** The emitted name is what `trim` would return for it: non-empty, trimmed, and
      different from the row's label. */
  lemma CommitEmitsTrimmedName(p: RowProps, s: RowState)
    requires Commit(p, s).fired.Some?
    ensures var n := Commit(p, s).fired.value.newName;
      n != "" && Trim(n) == n && n != p.text
  {
    TrimIdempotent(s.buffer);
  }

  /** Typing a value and pressing Enter: a value that trims to a new non-empty
      label is emitted trimmed and becomes the shown label. */
  lemma TypeThenEnterRenames(row: Row, v: string)
    requires row.state.isEditing
    requires !AllWs(v) && Trim(v) != row.props.text
    ensures var r1 := Step(row, Input(v)).row;
      var st := Step(r1, PressEnter);
      && st.fired == Some(RenameEvent(row.props.formatoId, Trim(v)))
      && Render(true, st.row.state) == Label(Trim(v))
  {
  }

  /** Typing only whitespace and pressing Enter emits nothing and leaves edit mode,
      but the row goes on showing the whitespace that was typed, not its label. */
  lemma BlankCommitShowsTypedText(row: Row, v: string)
    requires row.state.isEditing && AllWs(v)
    ensures var r1 := Step(row, Input(v)).row;
      var st := Step(r1, PressEnter);
      && st.fired == None
      && Render(true, st.row.state) == Label(v)
      && (v != row.props.text ==> Render(true, st.row.state) != Label(row.props.text))
  {
  }

  /** A value that only adds whitespace around the current label emits nothing,
      and the padded value stays on screen. */
  lemma PaddedCommitShowsTypedText(row: Row, a: string, b: string)
    requires row.state.isEditing && AllWs(a) && AllWs(b) && Trimmed(row.props.text)
    ensures var v := a + row.props.text + b;
      var st := Step(Step(row, Input(v)).row, PressEnter);
      && st.fired == None
      && Render(true, st.row.state) == Label(v)
  {
    TrimPadded(a, row.props.text, b);
  }

  /** A row that is not editable never enters edit mode and never emits. */
  lemma {:induction false} LockedRowNeverRenames(row: Row, es: seq<RowEvent>)
    requires !row.props.editable && !row.state.isEditing
    ensures !Run(row, es).row.state.isEditing
    ensures Run(row, es).fired == []
    decreases |es|
  {
    if es != [] {
      var st := Step(row, es[0]);
      assert !st.row.state.isEditing && st.fired == None;
      LockedRowNeverRenames(st.row, es[1..]);
    }
  }

  /** Each rename event needs its own edit session: a run emits at most one event
      per press of the rename button (plus one if it starts mid-edit). */
  lemma {:induction false} AtMostOneRenamePerEdit(row: Row, es: seq<RowEvent>)
    ensures |Run(row, es).fired| <= CountPresses(es) + (if row.state.isEditing then 1 else 0)
    decreases |es|
  {
    if es != [] {
      var st := Step(row, es[0]);
      AtMostOneRenamePerEdit(st.row, es[1..]);
    }
  }

  /** `SidebarItem` with `tipo === "formatoItem"` forwards its `editar` prop, which
      the row does not read; the row's `editable` keeps its default `true`. */
  function WrappedRowProps(text: string, formatoId: string, editar: bool): (r: RowProps)
    ensures r.text == text && r.formatoId == formatoId
    ensures r.editable
  {
    RowProps(text, formatoId, true)
  }

  /** So a row rendered through `SidebarItem` can be renamed even when the caller
      passes `editar = false`. */
  lemma WrappedRowIgnoresEditar(text: string, formatoId: string)
    ensures var row := Mount(WrappedRowProps(text, formatoId, false));
      Step(row, PressRename).row.state.isEditing
  {
  }
}

=== FILE: hostapp.dfy ===
/**
 The demo host application's own state: the list of renameable entries
 (`formatos`) with its rename handler, and the single active identifier that
 decides which General item is highlighted.
 */
module HostApp {
  import opened Wrappers

  /** One renameable entry. */
  datatype Formato = Formato(id: string, nombre: string)

  /** The entries the application starts with. */
  const InitialFormatos: seq<Formato> := [
    Formato("f1", "Informe mensual"),
    Formato("f2", "Acta de reunión"),
    Formato("f3", "Checklist Operativo")
  ]

  /** The active identifier the application starts with. */
  const InitialActiveId: string := "docs"

  /** The per-entry callback of `handleRenombrar`'s `map`: the entry keeps its
      `id`, only the matching entry takes the new name, and nothing else of any
      entry changes. */
  function RenameEntry(f: Formato, id: string, nuevoNombre: string): (r: Formato)
    ensures r.id == f.id
    ensures f.id == id ==> r.nombre == nuevoNombre
    ensures f.id != id ==> r == f
  {
    if f.id == id then f.(nombre := nuevoNombre) else f
  }

  /** `handleRenombrar(id, nuevoNombre)`: every entry whose `id` matches gets the
      new name; the list keeps its length, its order and every `id`, and the other
      entries are untouched. */
  function Rename(fs: seq<Formato>, id: string, nuevoNombre: string): (r: seq<Formato>)
    ensures |r| == |fs|
    ensures forall i :: 0 <= i < |fs| ==> r[i].id == fs[i].id
    ensures forall i :: 0 <= i < |fs| && fs[i].id != id ==> r[i] == fs[i]
    ensures forall i :: 0 <= i < |fs| && fs[i].id == id ==> r[i].nombre == nuevoNombre
  {
    if fs == [] then []
    else [RenameEntry(fs[0], id, nuevoNombre)] + Rename(fs[1..], id, nuevoNombre)
  }

  function Ids(fs: seq<Formato>): seq<string> {
    seq(|fs|, i requires 0 <= i < |fs| => fs[i].id)
  }

  /** A General item: its label and, for the items that select something, the
      identifier its click stores as active (the "Nuevo" item has none: it neither
      sets nor shows an active state). */
  datatype GeneralItem = GeneralItem(text: string, key: Option<string>)

  const GeneralItems: seq<GeneralItem> := [
    GeneralItem("Panel", Some("panel")),
    GeneralItem("Documentos", Some("docs")),
    GeneralItem("Nuevo", None)
  ]

  /** `active={activeId === key}`; an item without a key is never active, and a
      keyed item is active only for its own key. */
  predicate IsHighlighted(activeId: string, item: GeneralItem): (r: bool)
    ensures r ==> item.key.Some? && item.key.value == activeId
    ensures item.key.None? ==> !r
  {
    item.key == Some(activeId)
  }

  /** The item's click handler: `setActiveId(key)`, or nothing for an item without
      a key. */
  function ClickGeneral(activeId: string, item: GeneralItem): (r: string)
    ensures item.key.Some? ==> IsHighlighted(r, item)
    ensures item.key.None? ==> r == activeId
  {
    if item.key.Some? then item.key.value else activeId
  }

  predicate DistinctKeys(items: seq<GeneralItem>) {
    forall i, j :: 0 <= i < j < |items| && items[i].key.Some? ==> items[i].key != items[j].key
  }

  // ---------------------------------------------------------------------------
  // Lemmas
  // ---------------------------------------------------------------------------

  /** Renaming an identifier no entry has leaves the list as it was. */
  lemma {:induction false} RenameAbsentIsIdentity(fs: seq<Formato>, id: string, nuevoNombre: string)
    requires id !in Ids(fs)
    ensures Rename(fs, id, nuevoNombre) == fs
  {
    var r := Rename(fs, id, nuevoNombre);
    forall i | 0 <= i < |fs| ensures r[i] == fs[i] {
      assert Ids(fs)[i] == fs[i].id;
    }
  }

  /** Applying the same rename twice is applying it once. */
  lemma RenameIdempotent(fs: seq<Formato>, id: string, nuevoNombre: string)
    ensures Rename(Rename(fs, id, nuevoNombre), id, nuevoNombre) == Rename(fs, id, nuevoNombre)
  {
    var r := Rename(fs, id, nuevoNombre);
    var rr := Rename(r, id, nuevoNombre);
    forall i | 0 <= i < |fs| ensures rr[i] == r[i] {
      if fs[i].id == id {
        assert rr[i].nombre == r[i].nombre;
      }
    }
  }

  /** Of two renames of the same identifier only the later one is visible. */
  lemma RenameLastWins(fs: seq<Formato>, id: string, a: string, b: string)
    ensures Rename(Rename(fs, id, a), id, b) == Rename(fs, id, b)
  {
    var r1 := Rename(Rename(fs, id, a), id, b);
    var r2 := Rename(fs, id, b);
    forall i | 0 <= i < |fs| ensures r1[i] == r2[i] {
    }
  }

  /** Renames of different identifiers commute. */
  lemma RenameCommutes(fs: seq<Formato>, id1: string, a: string, id2: string, b: string)
    requires id1 != id2
    ensures Rename(Rename(fs, id1, a), id2, b) == Rename(Rename(fs, id2, b), id1, a)
  {
    var r1 := Rename(Rename(fs, id1, a), id2, b);
    var r2 := Rename(Rename(fs, id2, b), id1, a);
    forall i | 0 <= i < |fs| ensures r1[i] == r2[i] {
    }
  }

  /** When the keys are distinct, at most one item is highlighted. */
  lemma AtMostOneHighlighted(items: seq<GeneralItem>, activeId: string)
    requires DistinctKeys(items)
    ensures forall i, j ::
      && 0 <= i < |items| && 0 <= j < |items|
      && IsHighlighted(activeId, items[i]) && IsHighlighted(activeId, items[j])
      ==> i == j
  {
  }

  /** Clicking a keyed General item highlights exactly the items with that key,
      which in the application's own list is that one item. */
  lemma ClickHighlightsOnlyTarget(activeId: string, k: nat)
    requires k < |GeneralItems| && GeneralItems[k].key.Some?
    ensures var a := ClickGeneral(activeId, GeneralItems[k]);
      forall j :: 0 <= j < |GeneralItems| ==> (IsHighlighted(a, GeneralItems[j]) <==> j == k)
  {
    var a := ClickGeneral(activeId, GeneralItems[k]);
    assert DistinctKeys(GeneralItems);
    AtMostOneHighlighted(GeneralItems, a);
  }
}

=== FILE: jsstring.dfy ===
/**
 The three JavaScript string operations the sidebar's name handling relies on,
 with the exact semantics of the ECMAScript built-ins:
 - `String.prototype.trim`, which strips WhiteSpace and LineTerminator code points;
 - `String.prototype.split(" ")`, which breaks on the single space character only
   and keeps the empty pieces between adjacent separators;
 - `Array.prototype.filter(Boolean)` on strings, which drops the empty strings.
 */
module JsString {

  /** The WhiteSpace and LineTerminator code points of ECMAScript (section 12.2 and
      12.3 of ECMA-262): exactly the characters `trim` removes. */
  predicate IsWs(c: char) {
    || c == '\t' || c == '\n' || c == '\U{000B}' || c == '\U{000C}' || c == '\r'
    || c == ' ' || c == '\U{00A0}' || c == '\U{1680}'
    || ('\U{2000}' <= c <= '\U{200A}')
    || c == '\U{2028}' || c == '\U{2029}' || c == '\U{202F}' || c == '\U{205F}'
    || c == '\U{3000}' || c == '\U{FEFF}'
  }

  predicate AllWs(s: string) {
    forall k :: 0 <= k < |s| ==> IsWs(s[k])
  }

  predicate AllSpaces(s: string) {
    forall k :: 0 <= k < |s| ==> s[k] == ' '
  }

  predicate AllEmpty(ps: seq<string>) {
    forall k :: 0 <= k < |ps| ==> ps[k] == ""
  }

  /** Neither end of `s` is whitespace: what `trim` leaves behind. */
  predicate Trimmed(s: string) {
    s == [] || (!IsWs(s[0]) && !IsWs(s[|s| - 1]))
  }

  /** Index of the first non-whitespace character of `s` at or after `i`
      (`|s|` when there is none). */
  function FirstNonWs(s: string, i: nat): (r: nat)
    requires i <= |s|
    ensures i <= r <= |s|
    ensures forall k :: i <= k < r ==> IsWs(s[k])
    ensures r == |s| || !IsWs(s[r])
    decreases |s| - i
  {
    if i == |s| || !IsWs(s[i]) then i else FirstNonWs(s, i + 1)
  }

  /** End (exclusive) of the last non-whitespace character of `s` before `j`,
      scanning no lower than `lo` (`lo` when there is none). */
  function EndNonWs(s: string, lo: nat, j: nat): (r: nat)
    requires lo <= j <= |s|
    ensures lo <= r <= j
    ensures forall k :: r <= k < j ==> IsWs(s[k])
    ensures r == lo || !IsWs(s[r - 1])
    decreases j
  {
    if j == lo || !IsWs(s[j - 1]) then j else EndNonWs(s, lo, j - 1)
  }

  /** `String.prototype.trim`: the infix of `s` left once the whitespace on both
      sides is removed; empty exactly when `s` is all whitespace. */
  function Trim(s: string): (r: string)
    ensures Trimmed(r)
    ensures r == [] <==> AllWs(s)
  {
    var i := FirstNonWs(s, 0);
    var j := EndNonWs(s, i, |s|);
    assert i < |s| ==> i < j;
    s[i..j]
  }

  /** Joins pieces with one space between neighbours, the inverse of `Split`. */
  function JoinSpace(ps: seq<string>): string {
    if |ps| == 0 then ""
    else if |ps| == 1 then ps[0]
    else ps[0] + " " + JoinSpace(ps[1..])
  }

  /** `s.split(" ")`: the pieces between consecutive space characters, empty pieces
      included, so a string with n spaces has n + 1 pieces. Joining them back with
      single spaces gives `s` again. */
  function Split(s: string): (r: seq<string>)
    ensures |r| >= 1
    ensures forall k :: 0 <= k < |r| ==> ' ' !in r[k]
    ensures JoinSpace(r) == s
  {
    if |s| == 0 then [""]
    else
      var rest := Split(s[1..]);
      if s[0] == ' ' then
        assert JoinSpace([""] + rest) == "" + " " + JoinSpace(rest) by {
          assert ([""] + rest)[1..] == rest;
        }
        assert s == " " + s[1..];
        [""] + rest
      else
        var r := [[s[0]] + rest[0]] + rest[1..];
        assert r[1..] == rest[1..];
        assert s == [s[0]] + s[1..];
        r
  }

  /** `filter(Boolean)` on a list of strings: keeps the non-empty ones, in order.
      How often each is kept is `KeepNonEmptyCounts`; the order is fixed by
      `KeepNonEmptyAppend` and `KeepNonEmptyOfNonEmpty`. */
  function KeepNonEmpty(ps: seq<string>): (r: seq<string>)
    ensures |r| <= |ps|
    ensures forall k :: 0 <= k < |r| ==> r[k] != ""
    ensures forall w :: w in r <==> w in ps && w != ""
  {
    if |ps| == 0 then []
    else if ps[0] == "" then KeepNonEmpty(ps[1..])
    else [ps[0]] + KeepNonEmpty(ps[1..])
  }

  /** The space-separated words of `s`: the non-empty pieces of `s.split(" ")`,
      each free of spaces. `WordsEmptyIff` and `WordsOfJoin` tie them to `s`. */
  function Words(s: string): (r: seq<string>)
    ensures forall k :: 0 <= k < |r| ==> r[k] != "" && ' ' !in r[k]
  {
    var ps := Split(s);
    var r := KeepNonEmpty(ps);
    assert forall k :: 0 <= k < |r| ==> r[k] in ps;
    r
  }

  // ---------------------------------------------------------------------------
  // Lemmas
  // ---------------------------------------------------------------------------

  /** Splitting a space-free prefix glues it onto the first piece of the rest. */
  lemma {:induction false} SplitSpaceFreePrefix(w: string, x: string)
    requires ' ' !in w
    ensures Split(w + x) == [w + Split(x)[0]] + Split(x)[1..]
  {
    if w == [] {
      assert w + x == x;
      assert w + Split(x)[0] == Split(x)[0];
      assert Split(x) == [Split(x)[0]] + Split(x)[1..];
    } else {
      assert w[0] in w;
      assert ' ' !in w[1..] by {
        forall c | c in w[1..] ensures c != ' ' { assert c in w; }
      }
      SplitSpaceFreePrefix(w[1..], x);
      assert (w + x)[1..] == w[1..] + x;
      assert [w[0]] + (w[1..] + Split(x)[0]) == w + Split(x)[0];
    }
  }

  /** `Split` inverts `JoinSpace` on space-free pieces: together with the ensures of
      `Split` this makes the two a bijection between strings and non-empty lists
      of space-free pieces. */
  lemma {:induction false} SplitJoinSpace(ps: seq<string>)
    requires |ps| >= 1
    requires forall k :: 0 <= k < |ps| ==> ' ' !in ps[k]
    ensures Split(JoinSpace(ps)) == ps
  {
    if |ps| == 1 {
      SplitSpaceFreePrefix(ps[0], "");
      assert ps[0] + "" == ps[0];
    } else {
      SplitJoinSpace(ps[1..]);
      var tail := " " + JoinSpace(ps[1..]);
      SplitSpaceFreePrefix(ps[0], tail);
      assert tail[1..] == JoinSpace(ps[1..]);
      assert Split(tail) == [""] + ps[1..];
      assert ps[0] + tail == JoinSpace(ps);
      assert ps[0] + "" == ps[0];
      assert [ps[0]] + ps[1..] == ps;
    }
  }

  /** A string that begins with a non-empty space-free piece is not all spaces. */
  lemma NonEmptyPieceNotAllSpaces(w: string, x: string)
    requires w != "" && ' ' !in w
    ensures !AllSpaces(w + x)
  {
    assert (w + x)[0] == w[0];
    assert w[0] in w;
  }

  /** Joining space-free pieces gives nothing but spaces exactly when every piece
      is empty. */
  lemma {:induction false} JoinOfEmptyPieces(ps: seq<string>)
    requires |ps| >= 1
    requires forall k :: 0 <= k < |ps| ==> ' ' !in ps[k]
    ensures AllSpaces(JoinSpace(ps)) <==> AllEmpty(ps)
  {
    if |ps| == 1 {
      assert JoinSpace(ps) == ps[0] + "";
      if ps[0] != "" {
        NonEmptyPieceNotAllSpaces(ps[0], "");
      }
    } else {
      assert forall k :: 0 <= k < |ps| - 1 ==> ps[1..][k] == ps[k + 1];
      JoinOfEmptyPieces(ps[1..]);
      var t := JoinSpace(ps[1..]);
      var j := JoinSpace(ps);
      assert j == ps[0] + (" " + t);
      if ps[0] != "" {
        NonEmptyPieceNotAllSpaces(ps[0], " " + t);
      }
      if AllSpaces(j) {
        assert AllSpaces(t) by {
          forall k | 0 <= k < |t| ensures t[k] == ' ' {
            assert j[|ps[0]| + 1 + k] == t[k];
          }
        }
        forall k | 0 <= k < |ps| ensures ps[k] == "" {
          if k > 0 { assert ps[k] == ps[1..][k - 1]; }
        }
      }
      if AllEmpty(ps) {
        assert AllEmpty(ps[1..]) by {
          forall k | 0 <= k < |ps| - 1 ensures ps[1..][k] == "" {
            assert ps[1..][k] == ps[k + 1];
          }
        }
        assert ps[0] == "";
        assert j == " " + t;
      }
    }
  }

  /** A string has no words exactly when it holds nothing but spaces. */
  lemma WordsEmptyIff(s: string)
    ensures Words(s) == [] <==> AllSpaces(s)
  {
    var ps := Split(s);
    var r := KeepNonEmpty(ps);
    JoinOfEmptyPieces(ps);
    if r != [] { assert r[0] in ps; }
    if !AllEmpty(ps) {
      var k :| 0 <= k < |ps| && ps[k] != "";
      assert ps[k] in r;
    }
  }

  /** `filter(Boolean)` keeps every non-empty piece exactly as often as it occurs
      and drops every empty one. */
  lemma {:induction false} KeepNonEmptyCounts(ps: seq<string>)
    ensures multiset(KeepNonEmpty(ps)) == multiset(ps)["" := 0]
    decreases |ps|
  {
    if |ps| > 0 {
      KeepNonEmptyCounts(ps[1..]);
      assert ps == [ps[0]] + ps[1..];
    }
  }

  /** `filter(Boolean)` distributes over concatenation, so it keeps the order of
      the pieces it retains. */
  lemma {:induction false} KeepNonEmptyAppend(a: seq<string>, b: seq<string>)
    ensures KeepNonEmpty(a + b) == KeepNonEmpty(a) + KeepNonEmpty(b)
    decreases |a|
  {
    if |a| == 0 {
      assert a + b == b;
    } else {
      assert (a + b)[0] == a[0];
      assert (a + b)[1..] == a[1..] + b;
      KeepNonEmptyAppend(a[1..], b);
    }
  }

  /** A list with no empty piece passes `filter(Boolean)` unchanged. */
  lemma {:induction false} KeepNonEmptyOfNonEmpty(ps: seq<string>)
    requires forall k :: 0 <= k < |ps| ==> ps[k] != ""
    ensures KeepNonEmpty(ps) == ps
    decreases |ps|
  {
    if |ps| > 0 {
      assert forall k :: 0 <= k < |ps| - 1 ==> ps[1..][k] == ps[k + 1];
      KeepNonEmptyOfNonEmpty(ps[1..]);
      assert [ps[0]] + ps[1..] == ps;
    }
  }

  /** The words of non-empty space-free words joined by single spaces are exactly
      those words, in order. */
  lemma WordsOfJoin(ws: seq<string>)
    requires |ws| >= 1
    requires forall k :: 0 <= k < |ws| ==> ws[k] != "" && ' ' !in ws[k]
    ensures Words(JoinSpace(ws)) == ws
  {
    SplitJoinSpace(ws);
    KeepNonEmptyOfNonEmpty(ws);
  }

  /** A string that starts with a non-space character has a first word, and it is
      the first piece `split` produces. */
  lemma SplitFirstPieceNonEmpty(s: string)
    requires |s| > 0 && s[0] != ' '
    ensures Split(s)[0] != "" && Split(s)[0][0] == s[0]
  {
  }

  lemma WordsOfNonSpaceStart(s: string)
    requires |s| > 0 && s[0] != ' '
    ensures |Words(s)| >= 1 && Words(s)[0] == Split(s)[0]
  {
    SplitFirstPieceNonEmpty(s);
  }

  /** The words of two space-free words joined by one space are those two words. */
  lemma WordsOfPair(a: string, b: string)
    requires a != "" && b != "" && ' ' !in a && ' ' !in b
    ensures Words(a + " " + b) == [a, b]
  {
    assert JoinSpace([a, b]) == a + " " + b by {
      assert [a, b][1..] == [b];
    }
    WordsOfJoin([a, b]);
  }

  /** The words of three space-free words joined by single spaces are those three. */
  lemma WordsOfTriple(a: string, b: string, c: string)
    requires a != "" && b != "" && c != "" && ' ' !in a && ' ' !in b && ' ' !in c
    ensures Words(a + " " + b + " " + c) == [a, b, c]
  {
    var ps := [a, b, c];
    assert ps[1..] == [b, c];
    assert [b, c][1..] == [c];
    assert JoinSpace([b, c]) == b + " " + c;
    assert JoinSpace(ps) == a + " " + b + " " + c;
    WordsOfJoin(ps);
  }

  /** A space-free string is its own only word (or has none when empty). */
  lemma WordsOfSpaceFree(a: string)
    requires ' ' !in a
    ensures Words(a) == if a == "" then [] else [a]
  {
    SplitJoinSpace([a]);
    assert [a][1..] == [];
  }

  /** `trim` undoes whitespace padding on both sides of a trimmed string. */
  lemma TrimPadded(a: string, t: string, b: string)
    requires AllWs(a) && AllWs(b) && Trimmed(t)
    ensures Trim(a + t + b) == t
  {
    var s := a + t + b;
    var i := FirstNonWs(s, 0);
    if t == [] {
      assert forall k :: 0 <= k < |s| ==> IsWs(s[k]) by {
        forall k | 0 <= k < |s| ensures IsWs(s[k]) {
          if k < |a| { assert s[k] == a[k]; } else { assert s[k] == b[k - |a|]; }
        }
      }
      assert i == |s|;
    } else {
      assert s[|a|] == t[0];
      forall k | 0 <= k < |a| ensures IsWs(s[k]) { assert s[k] == a[k]; }
      assert i == |a|;
      var j := EndNonWs(s, i, |s|);
      assert s[|a| + |t| - 1] == t[|t| - 1];
      forall k | |a| + |t| <= k < |s| ensures IsWs(s[k]) { assert s[k] == b[k - |a| - |t|]; }
      assert j == |a| + |t|;
      assert s[i..j] == t;
    }
  }

  /** Every string is its trimmed form with whitespace around it. */
  lemma TrimDecompose(s: string) returns (a: string, b: string)
    ensures AllWs(a) && AllWs(b) && s == a + Trim(s) + b
  {
    var i := FirstNonWs(s, 0);
    var j := EndNonWs(s, i, |s|);
    a, b := s[..i], s[j..];
    assert s == s[..i] + s[i..j] + s[j..];
  }

  /** Trimming twice is trimming once. */
  lemma TrimIdempotent(s: string)
    ensures Trim(Trim(s)) == Trim(s)
  {
    var t := Trim(s);
    TrimPadded([], t, []);
    assert [] + t + [] == t;
  }
}

=== FILE: shellname.dfy ===
/**
 The name shown in the sidebar's footer identity block (and used to key its
 avatar): the first two space-separated words of the trimmed `nombre` prop.
 */
module ShellName {
  import opened JsString

  /** The `nombre` prop as a caller may pass it: left out (`undefined`), `null`,
      or a string. */
  datatype NameProp = Absent | Null | Given(s: string)

  /** The parameter default the shell declares for `nombre`. */
  const DefaultName: string := "Usuario"

  /** `String(nombre || "")` after parameter defaulting: only an absent prop takes
      the default; `null` and `""` are falsy and become `""`, any other string is
      kept as it is. */
  function Coerce(n: NameProp): (r: string)
    ensures r == "" <==> n == Null || n == Given("")
    ensures n.Absent? ==> r == DefaultName
    ensures n.Given? ==> r == n.s
  {
    match n
    case Absent => DefaultName
    case Null => ""
    case Given(s) => s
  }

  /** `partes`: the non-empty space-separated pieces of the trimmed name. There
      are none exactly when the name is blank. */
  function Parts(n: NameProp): (r: seq<string>)
    ensures forall k :: 0 <= k < |r| ==> r[k] != "" && ' ' !in r[k]
    ensures r == [] <==> AllWs(Coerce(n))
  {
    var t := Trim(Coerce(n));
    if t == [] then
      WordsOfSpaceFree(t);
      Words(t)
    else
      assert t[0] != ' ';
      WordsOfNonSpaceStart(t);
      Words(t)
  }

  /** Non-empty, space-free words: what `Parts` returns. */
  predicate IsWordList(w: seq<string>) {
    forall k :: 0 <= k < |w| ==> w[k] != "" && ' ' !in w[k]
  }

  /** The first two words joined by one space, or the only word, or `""`. */
  function FirstTwo(w: seq<string>): string {
    if |w| > 1 then w[0] + " " + w[1]
    else if |w| == 1 then w[0]
    else ""
  }

  /** `displayName`: the first two parts joined by one space, or the only part,
      or `""` when there is none, which happens exactly when the name is blank. */
  function DisplayName(n: NameProp): (r: string)
    ensures r == "" <==> AllWs(Coerce(n))
  {
    FirstTwo(Parts(n))
  }

  function Min(a: int, b: int): int {
    if a < b then a else b
  }

  // ---------------------------------------------------------------------------
  // Lemmas
  // ---------------------------------------------------------------------------

  /** The first part starts at the name's first non-whitespace character. */
  lemma PartsStartAtName(n: NameProp)
    requires !AllWs(Coerce(n))
    ensures Parts(n)[0][0] == Trim(Coerce(n))[0]
  {
    var t := Trim(Coerce(n));
    assert t[0] != ' ';
    WordsOfNonSpaceStart(t);
    SplitFirstPieceNonEmpty(t);
  }

  /** A `null`, empty or whitespace-only name shows as `""`. */
  lemma DisplayNameBlank(n: NameProp)
    requires n.Null? || (n.Given? && AllWs(n.s))
    ensures DisplayName(n) == ""
  {
  }

  /** A name that is left out shows as the parameter default. */
  lemma DisplayNameDefault()
    ensures DisplayName(Absent) == DefaultName
  {
    assert ' ' !in DefaultName;
    assert Trimmed(DefaultName);
    TrimPadded([], DefaultName, []);
    assert [] + DefaultName + [] == DefaultName;
    WordsOfSpaceFree(DefaultName);
  }

  /** Re-splitting the first two words of a word list gives them back. */
  lemma FirstTwoResplit(w: seq<string>)
    requires IsWordList(w)
    ensures Words(FirstTwo(w)) == w[..Min(2, |w|)]
  {
    if |w| > 1 {
      WordsOfPair(w[0], w[1]);
      assert w[..2] == [w[0], w[1]];
    } else if |w| == 1 {
      WordsOfSpaceFree(w[0]);
      assert w[..1] == [w[0]];
    } else {
      WordsOfSpaceFree("");
    }
  }

  /** The first two words of a word list that starts with a non-whitespace
      character have no leading whitespace, no trailing space, and one space at
      most, right after the first word. */
  lemma FirstTwoShape(w: seq<string>)
    requires IsWordList(w) && (w != [] ==> !IsWs(w[0][0]))
    ensures var r := FirstTwo(w); r == "" || (!IsWs(r[0]) && r[|r| - 1] != ' ')
    ensures var r := FirstTwo(w); forall i :: 0 <= i < |r| && r[i] == ' ' ==> i == |w[0]|
  {
    var r := FirstTwo(w);
    if |w| > 1 {
      forall i | 0 <= i < |r| && i != |w[0]| ensures r[i] != ' ' {
        if i < |w[0]| {
          assert r[i] == w[0][i];
          assert w[0][i] in w[0];
        } else {
          assert r[i] == w[1][i - |w[0]| - 1];
          assert w[1][i - |w[0]| - 1] in w[1];
        }
      }
      assert r[|r| - 1] == w[1][|w[1]| - 1];
      assert w[1][|w[1]| - 1] in w[1];
    } else if |w| == 1 {
      forall i | 0 <= i < |r| ensures r[i] != ' ' {
        assert r[i] in w[0];
      }
    }
  }

  /** Splitting the display name again yields the first two words of the name (or
      all of them when there are fewer): at most two words, nothing else. */
  lemma DisplayNameFirstTwoWords(n: NameProp)
    ensures Words(DisplayName(n)) == Parts(n)[..Min(2, |Parts(n)|)]
  {
    FirstTwoResplit(Parts(n));
  }

  /** The display name has no leading whitespace, no trailing space and at most
      one space character, so never two spaces in a row. */
  lemma DisplayNameShape(n: NameProp)
    ensures var r := DisplayName(n); r == "" || (!IsWs(r[0]) && r[|r| - 1] != ' ')
    ensures var r := DisplayName(n); forall i :: 0 <= i < |r| && r[i] == ' ' ==> i == |Parts(n)[0]|
    ensures var r := DisplayName(n);
      forall i, j :: 0 <= i < j < |r| && r[i] == ' ' ==> r[j] != ' '
  {
    var w := Parts(n);
    if w != [] {
      PartsStartAtName(n);
    }
    FirstTwoShape(w);
  }

  /** When the trimmed name contains no space the display name is that whole
      trimmed name, even when it contains other whitespace such as a tab. */
  lemma DisplayNameSoleToken(n: NameProp)
    requires ' ' !in Trim(Coerce(n))
    ensures DisplayName(n) == Trim(Coerce(n))
  {
    WordsOfSpaceFree(Trim(Coerce(n)));
  }

  /** A name whose trim is a single-space join of words shows the first two of
      those words. */
  lemma DisplayNameOfJoin(n: NameProp, ws: seq<string>)
    requires |ws| >= 1 && IsWordList(ws)
    requires Trim(Coerce(n)) == JoinSpace(ws)
    ensures DisplayName(n) == FirstTwo(ws)
  {
    WordsOfJoin(ws);
    assert Parts(n) == ws;
  }

  /** The same for a name given already trimmed, with padding after it. */
  lemma DisplayNameOfPaddedJoin(t: string, pad: string, ws: seq<string>)
    requires |ws| >= 1 && IsWordList(ws)
    requires t == JoinSpace(ws) && Trimmed(t) && AllWs(pad)
    ensures DisplayName(Given(t + pad)) == FirstTwo(ws)
  {
    TrimPadded([], t, pad);
    assert [] + t + pad == t + pad;
    DisplayNameOfJoin(Given(t + pad), ws);
  }

  /** A name of three words separated by single spaces shows its first two. */
  lemma DisplayNameOfThreeWords(a: string, b: string, c: string)
    requires a != "" && b != "" && c != ""
    requires ' ' !in a && ' ' !in b && ' ' !in c
    requires !IsWs(a[0]) && !IsWs(c[|c| - 1])
    ensures DisplayName(Given(a + " " + b + " " + c)) == a + " " + b
  {
    var t := a + " " + b + " " + c;
    var ws := [a, b, c];
    assert JoinSpace(ws) == t by {
      assert ws[1..] == [b, c];
      assert [b, c][1..] == [c];
      assert JoinSpace([b, c]) == b + " " + c;
    }
    assert t[0] == a[0] && t[|t| - 1] == c[|c| - 1];
    DisplayNameOfPaddedJoin(t, [], ws);
    assert t + [] == t;
  }

  /** A name of two words separated by a single space shows whole once trimmed. */
  lemma DisplayNameOfTwoWords(a: string, b: string, pad: string)
    requires a != "" && b != "" && ' ' !in a && ' ' !in b
    requires !IsWs(a[0]) && !IsWs(b[|b| - 1]) && AllWs(pad)
    ensures DisplayName(Given(a + " " + b + pad)) == a + " " + b
  {
    var t := a + " " + b;
    var ws := [a, b];
    assert JoinSpace(ws) == t by {
      assert ws[1..] == [b];
    }
    assert t[0] == a[0] && t[|t| - 1] == b[|b| - 1];
    DisplayNameOfPaddedJoin(t, pad, ws);
  }

  /** Only the space character separates words, so a word may end in another
      whitespace character, a tab say: for "Ana Mar<TAB> Lopez" the display name
      is "Ana Mar<TAB>", which ends in whitespace; fed back in, that name is
      trimmed to "Ana Mar", so the derivation is not idempotent. */
  lemma DisplayNameKeepsInnerWhitespace(a: string, b: string, w: char, c: string)
    requires a != "" && b != "" && c != ""
    requires ' ' !in a && ' ' !in b && ' ' !in c && w != ' ' && IsWs(w)
    requires !IsWs(a[0]) && !IsWs(b[|b| - 1]) && !IsWs(c[|c| - 1])
    ensures DisplayName(Given(a + " " + (b + [w]) + " " + c)) == a + " " + (b + [w])
    ensures DisplayName(Given(a + " " + (b + [w]))) == a + " " + b
  {
    var bw := b + [w];
    assert ' ' !in bw;
    DisplayNameOfThreeWords(a, bw, c);
    assert a + " " + bw == a + " " + b + [w];
    DisplayNameOfTwoWords(a, b, [w]);
  }
}

=== FILE: sidebarapp.dfy ===
/**
 The demo application wired to the sidebar: the host's state (expansion flag,
 active identifier, entries) together with one rename-capable row per entry, and
 the round trip of a rename: the row emits, the host renames, the new name flows
 back into the row as its `text` prop.
 */
module SidebarApp {
  import opened Wrappers
  import opened JsString
  import Expansion
  import FormatoRow
  import opened HostApp

  datatype AppState = AppState(
    shell: Expansion.Shell,
    activeId: string,
    formatos: seq<Formato>,
    rows: seq<FormatoRow.Row>)

  datatype AppEvent =
    | ShellEv(e: Expansion.ShellEvent)        // a handler of the shell itself
    | GeneralClick(k: nat)                    // a click on `GeneralItems[k]`
    | FormatoClick(i: nat)                    // a click on the i-th row, outside its button and input
    | RowEv(i: nat, re: FormatoRow.RowEvent)  // an interaction with the i-th row's rename flow

  /** The props the application renders entry `f`'s row with (`editable` is passed
      as `true`): a row mounted with them shows the entry's name and can be
      renamed, and its events carry the entry's `id`. */
  function PropsFor(f: Formato): (p: FormatoRow.RowProps)
    ensures FormatoRow.Render(true, FormatoRow.Mount(p).state) == FormatoRow.Label(f.nombre)
    ensures FormatoRow.Step(FormatoRow.Mount(p), FormatoRow.PressRename).row.state.isEditing
    ensures p.formatoId == f.id
  {
    FormatoRow.RowProps(f.nombre, f.id, true)
  }

  /** One row per entry, each rendered with that entry's props. */
  predicate Valid(a: AppState) {
    && |a.rows| == |a.formatos|
    && forall i :: 0 <= i < |a.rows| ==> a.rows[i].props == PropsFor(a.formatos[i])
  }

  /** The application as first rendered: the initial entries and active
      identifier, the flag open unless the sidebar mounts on a narrow viewport,
      and every row out of edit mode showing its entry's name. */
  function Init(matches: bool): (a: AppState)
    ensures Valid(a)
    ensures a.shell.isMobile == matches && (a.shell.expanded <==> !matches)
    ensures a.activeId == InitialActiveId && a.formatos == InitialFormatos
    ensures forall i :: 0 <= i < |a.rows| ==>
      && !a.rows[i].state.isEditing
      && FormatoRow.Render(true, a.rows[i].state) == FormatoRow.Label(a.formatos[i].nombre)
  {
    var fs := InitialFormatos;
    AppState(Expansion.Mount(true, matches), InitialActiveId, fs,
      seq(|fs|, i requires 0 <= i < |fs| => FormatoRow.Mount(PropsFor(fs[i]))))
  }

  /** Re-rendering the rows with the entries' current names: each row whose label
      changed gets the new label and has its buffer reset to it. */
  function Resync(rows: seq<FormatoRow.Row>, fs: seq<Formato>): (r: seq<FormatoRow.Row>)
    requires |rows| == |fs|
    requires forall i :: 0 <= i < |rows| ==> rows[i].props.formatoId == fs[i].id && rows[i].props.editable
    ensures |r| == |rows|
    ensures forall i :: 0 <= i < |r| ==> r[i].props == PropsFor(fs[i])
    ensures forall i :: 0 <= i < |r| ==> r[i].state.isEditing == rows[i].state.isEditing
    ensures forall i :: 0 <= i < |r| && rows[i].props.text == fs[i].nombre ==> r[i] == rows[i]
    ensures forall i :: 0 <= i < |r| && rows[i].props.text != fs[i].nombre ==> r[i].state.buffer == fs[i].nombre
  {
    seq(|rows|, i requires 0 <= i < |rows| => FormatoRow.ReceiveText(rows[i], fs[i].nombre))
  }

  /** A row interaction: step the row; if it emitted a rename, let the host apply
      `handleRenombrar` and re-render every row with the new names. */
  function RowInteraction(a: AppState, i: nat, re: FormatoRow.RowEvent): (r: AppState)
    requires Valid(a) && i < |a.rows| && !re.TextProp?
    ensures Valid(r)
    ensures r.shell == a.shell && r.activeId == a.activeId
    ensures Ids(r.formatos) == Ids(a.formatos)
    ensures var st := FormatoRow.Step(a.rows[i], re);
      r.formatos == if st.fired.Some? then Rename(a.formatos, st.fired.value.id, st.fired.value.newName)
                    else a.formatos
  {
    var st := FormatoRow.Step(a.rows[i], re);
    var rows := a.rows[i := st.row];
    if st.fired.None? then
      AppState(a.shell, a.activeId, a.formatos, rows)
    else
      var fs := Rename(a.formatos, st.fired.value.id, st.fired.value.newName);
      AppState(a.shell, a.activeId, fs, Resync(rows, fs))
  }

  /** One application event. The rows render nothing while the sidebar is
      collapsed, so they take no clicks or input then; a General item calls its
      own handler and then collapses on mobile. The row's `text` prop is set only
      by the host. */
  function Step(a: AppState, e: AppEvent): (r: AppState)
    requires Valid(a)
    ensures Valid(r)
    ensures Ids(r.formatos) == Ids(a.formatos)
    ensures !e.ShellEv? && !e.GeneralClick? ==> r.shell == a.shell
    ensures r.formatos != a.formatos ==>
      && e.RowEv? && a.shell.expanded && e.i < |a.rows| && !e.re.TextProp?
      && FormatoRow.Step(a.rows[e.i], e.re).fired.Some?
    ensures r.activeId != a.activeId ==>
      || (e.GeneralClick? && e.k < |GeneralItems| && IsHighlighted(r.activeId, GeneralItems[e.k]))
      || (e.FormatoClick? && e.i < |a.formatos| && r.activeId == a.formatos[e.i].id)
  {
    match e
    case ShellEv(se) => a.(shell := Expansion.Step(a.shell, se))
    case GeneralClick(k) =>
      if k < |GeneralItems| then
        a.(activeId := ClickGeneral(a.activeId, GeneralItems[k]),
           shell := Expansion.Step(a.shell, Expansion.Navigate))
      else a
    case FormatoClick(i) =>
      if a.shell.expanded && i < |a.formatos| then a.(activeId := a.formatos[i].id) else a
    case RowEv(i, re) =>
      if a.shell.expanded && i < |a.rows| && !re.TextProp? then RowInteraction(a, i, re) else a
  }

  function Run(a: AppState, es: seq<AppEvent>): (r: AppState)
    requires Valid(a)
    ensures Valid(r)
    decreases |es|
  {
    if es == [] then a else Run(Step(a, es[0]), es[1..])
  }

  // ---------------------------------------------------------------------------
  // Lemmas
  // ---------------------------------------------------------------------------

  /** No sequence of events adds, removes, reorders or re-identifies an entry. */
  lemma {:induction false} RunKeepsIds(a: AppState, es: seq<AppEvent>)
    requires Valid(a)
    ensures Ids(Run(a, es).formatos) == Ids(a.formatos)
    decreases |es|
  {
    if es != [] {
      RunKeepsIds(Step(a, es[0]), es[1..]);
    }
  }

  /** The rename round trip: when a row's commit emits `(id, name)`, the host's
      entry for that row stores `name`, the row leaves edit mode showing `name`,
      and entries with other identifiers are untouched. */
  lemma RenameRoundTrip(a: AppState, i: nat, re: FormatoRow.RowEvent)
    requires Valid(a) && a.shell.expanded && i < |a.rows| && !re.TextProp?
    requires FormatoRow.Step(a.rows[i], re).fired.Some?
    ensures var ev := FormatoRow.Step(a.rows[i], re).fired.value;
      var r := Step(a, RowEv(i, re));
      && ev.id == a.formatos[i].id
      && r.formatos[i].nombre == ev.newName
      && r.rows[i].state == FormatoRow.RowState(false, ev.newName)
      && FormatoRow.Render(r.shell.expanded, r.rows[i].state) == FormatoRow.Label(r.formatos[i].nombre)
      && forall j :: 0 <= j < |a.formatos| && a.formatos[j].id != ev.id ==>
           r.formatos[j] == a.formatos[j] && r.rows[j] == a.rows[j]
  {
    var st := FormatoRow.Step(a.rows[i], re);
    var rows := a.rows[i := st.row];
    var fs := Rename(a.formatos, st.fired.value.id, st.fired.value.newName);
    assert rows[i].props.text == a.formatos[i].nombre;
    assert st.fired.value.newName != a.formatos[i].nombre;
  }

  /** Collapsing the sidebar in the middle of an edit emits nothing and changes no
      entry; the row stays mounted, so it is hidden but still editing, and
      re-expanding brings the editor back with the typed text. */
  lemma CollapseMidEditKeepsEdit(a: AppState, i: nat)
    requires Valid(a) && i < |a.rows| && a.rows[i].state.isEditing
    ensures var r := Step(a, ShellEv(Expansion.Escape));
      && r.formatos == a.formatos && r.rows == a.rows
      && FormatoRow.Render(r.shell.expanded, r.rows[i].state) == FormatoRow.Hidden
      && var back := Step(r, ShellEv(Expansion.OpenButton));
         FormatoRow.Render(back.shell.expanded, back.rows[i].state) == FormatoRow.Editor(a.rows[i].state.buffer)
  {
  }

  /** Clicking a row selects its entry's identifier. The application's entries keep
      the identifiers they start with (`RunKeepsIds`), none of which is a General
      item's key, so no General item is highlighted then. */
  lemma FormatoClickClearsGeneralHighlight(a: AppState, i: nat)
    requires Valid(a) && a.shell.expanded && i < |a.formatos|
    requires Ids(a.formatos) == Ids(InitialFormatos)
    ensures var r := Step(a, FormatoClick(i));
      && r.activeId == a.formatos[i].id
      && forall j :: 0 <= j < |GeneralItems| ==> !IsHighlighted(r.activeId, GeneralItems[j])
  {
    assert a.formatos[i].id == Ids(a.formatos)[i];
    assert Ids(InitialFormatos) == ["f1", "f2", "f3"];
  }

  /** The name typed in the worked examples below. */
  const TypedName: string := "Informe anual"

  /** Only spaces, typed in the blank worked example. */
  const TypedBlanks: string := "   "

  /** The whole rename flow of one row, in the running application: pressing the
      rename button, typing a value that trims to a new non-blank name and pressing
      Enter applies `handleRenombrar` with the trimmed value and leaves the row
      showing it; the flag and the active identifier are untouched. */
  lemma RenameByTyping(a: AppState, i: nat, v: string)
    requires Valid(a) && a.shell.expanded && i < |a.rows|
    requires !AllWs(v) && Trim(v) != a.formatos[i].nombre
    ensures var a3 := Step(Step(Step(a, RowEv(i, FormatoRow.PressRename)), RowEv(i, FormatoRow.Input(v))), RowEv(i, FormatoRow.PressEnter));
      && a3.formatos == Rename(a.formatos, a.formatos[i].id, Trim(v))
      && a3.rows[i].state == FormatoRow.RowState(false, Trim(v))
      && a3.shell == a.shell && a3.activeId == a.activeId
  {
    var a1 := Step(a, RowEv(i, FormatoRow.PressRename));
    assert a1.formatos == a.formatos && a1.rows[i].state.isEditing;
    var a2 := Step(a1, RowEv(i, FormatoRow.Input(v)));
    assert a2.formatos == a.formatos && a2.rows[i].state == FormatoRow.RowState(true, v);
    var st := FormatoRow.Step(a2.rows[i], FormatoRow.PressEnter);
    assert st.fired == Some(FormatoRow.RenameEvent(a.formatos[i].id, Trim(v)));
    RenameRoundTrip(a2, i, FormatoRow.PressEnter);
  }

  /** The typed name is already trimmed and not blank. */
  lemma TypedNameIsTrimmed()
    ensures Trim(TypedName) == TypedName && !AllWs(TypedName)
  {
    var v := TypedName;
    assert Trimmed(v) && !IsWs(v[0]);
    TrimPadded([], v, []);
    assert [] + v + [] == v;
  }

  /** The worked example: in the initial application on a wide viewport, renaming
      the first entry to "Informe anual" with Enter stores the new name. */
  lemma RenameFirstEntryExample()
    ensures var a := Init(false);
      var a1 := Step(a, RowEv(0, FormatoRow.PressRename));
      var a2 := Step(a1, RowEv(0, FormatoRow.Input(TypedName)));
      var a3 := Step(a2, RowEv(0, FormatoRow.PressEnter));
      && a3.formatos[0] == Formato("f1", TypedName)
      && a3.formatos[1..] == a.formatos[1..]
      && !a3.rows[0].state.isEditing
  {
    var v := TypedName;
    var a := Init(false);
    TypedNameIsTrimmed();
    assert a.formatos[0].nombre != v by {
      assert a.formatos[0].nombre[8] != v[8];
    }
    RenameByTyping(a, 0, v);
    var fs := Rename(a.formatos, "f1", v);
    assert a.formatos[1].id != "f1" && a.formatos[2].id != "f1";
    assert fs[1..] == a.formatos[1..];
  }

  /** The same example with only spaces typed: nothing is emitted and the entry
      keeps its name, but the row shows the spaces. */
  lemma BlankRenameExample()
    ensures var a := Init(false);
      var a1 := Step(a, RowEv(0, FormatoRow.PressRename));
      var a2 := Step(a1, RowEv(0, FormatoRow.Input(TypedBlanks)));
      var a3 := Step(a2, RowEv(0, FormatoRow.PressEnter));
      && a3.formatos == a.formatos
      && FormatoRow.Render(a3.shell.expanded, a3.rows[0].state) == FormatoRow.Label(TypedBlanks)
  {
    var v := TypedBlanks;
    var a := Init(false);
    var a1 := Step(a, RowEv(0, FormatoRow.PressRename));
    var a2 := Step(a1, RowEv(0, FormatoRow.Input(v)));
    assert a2.rows[0].state == FormatoRow.RowState(true, v);
    assert AllWs(v);
  }
}

=== FILE: wrappers.dfy ===
/** Optional values: an absent callback result, an event that may or may not fire. */
module Wrappers {

  datatype Option<+T> = None | Some(value: T)

}
